=== FILE: README.md ===
# Task lifecycle and authorization of the collaborative task manager

This project models the server of a task-tracking web application in Dafny.
Three roles (Admin, Manager, Member) create, list, filter, delete and
re-status tasks. The model covers the request handlers of `server/index.js`
and the two Mongoose schemas in `server/models/`. Each handler is a pure
function. It takes an abstract store (a map of users and a map of tasks,
keyed by document id) and the request's inputs. It returns either an error,
or a result together with the store after the request.

Modules, leaf first:

- `Values`: `Option` (an absent request field is `None`) and JavaScript truthiness of a string field.
- `Text`: `String.prototype.trim`, which every `trim: true` schema path applies.
- `TaskModel`: the `Task` schema (`server/models/task.js`). It gives the status enum and its default, the validity of a stored task, and how `new Task(...)` plus `save()` turns a request body into a stored task or a validation failure.
- `UserModel`: the `User` schema (`server/models/user.js`). It gives the role enum and its default, the required fields, and a salted stand-in for bcrypt.
- `Store`: the two collections, the store invariant (valid documents, unique emails), and the `findOne({ email })` lookup.
- `Authz`: session tokens, and the owner-or-privileged rule of `PUT /tasks/:id`.
- `Server`: the handlers for `/auth/login`, `/users`, `/users-send`, `GET /tasks`, `/tasks-send`, `DELETE /tasks/:id`, `PUT /tasks/:id` and `/tasks-member`.
- `Routes`: dispatch of a request to its handler with the HTTP status code of the reply, and runs of many requests.
- `Scenario`: the demo users of `server/seedUsers.js` as a concrete store, with an end-to-end walk through the lifecycle.
- `Findings`: the discrepancy described under "## Findings".

An error carries no store, so a failed request changes nothing. Ids that the
database would generate, and bcrypt's random salt, are inputs of the request.
Reusing an existing id fails as a duplicate key (500).

Behaviour of the code worth noting, which the model follows:

- A status outside the enum in `PUT /tasks/:id` or `POST /tasks-send` fails inside `save()`. It is answered 500 (`InternalError`), not as invalid input.
- A missing or unverifiable bearer token makes `jwt.verify` throw. It is answered 500, not as unauthenticated.
- A token whose user no longer exists gets 404 if the task is missing. Otherwise it gets 500, because `user.name` throws.
- `POST /users-send` answers a taken email with 400. Its response includes the stored user, hash and all.
- The role used for authorization is re-read from the store. The role claim inside the token is ignored.
- `Task.find` casts query values through the schema's setters. The `assignedTo` and `createdBy` filters of `GET /tasks` are therefore trimmed before they are compared, and so is the user's name that `/tasks-member` queries with. Whether a filter is used at all depends on its raw, untrimmed value.

## Model

| member | source | states |
|---|---|---|
| Text.Trim | server/models/task.js:5-28 | a trimmed path neither starts nor ends with whitespace |
| Text.TrimDecomposes | server/models/task.js:5-28 | the input is leading whitespace, then the trimmed value, then trailing whitespace, so trimming removes only whitespace at the ends |
| Text.TrimFixesExactlyTrimmed | server/models/task.js:5-28 | trimming leaves a string unchanged if and only if it has no leading or trailing whitespace |
| Text.TrimIdempotent | server/models/task.js:5-28 | trimming a stored (already trimmed) value again changes nothing |
| Text.TrimEmptyIffAllWhitespace | server/models/task.js:5-9 | a value is empty after trimming if and only if it is made only of whitespace |
| TaskModel.ParseStatus | server/models/task.js:19-21 | a string passes the status enum if and only if it is exactly "To Do", "In Progress" or "Done", and it then names that status |
| TaskModel.StatusRoundTrip | server/models/task.js:19-22 | every status survives being stored as its name and read back |
| TaskModel.CastStatus | server/models/task.js:19-22 | an absent status becomes "To Do"; a present one must be spelt as an enum value |
| TaskModel.BuildTask | server/models/task.js:3-33 | the schema accepts a body if and only if title, assignedTo and createdBy are present and non-empty after trimming and any status is an enum value; the accepted task holds the trimmed fields, an optional trimmed description, and the given status or the default |
| TaskModel.BuildTaskValid | server/models/task.js:5-28 | every task the schema accepts is valid: required fields non-empty and trimmed, description trimmed when present |
| TaskModel.BlankTitleRejected | server/models/task.js:5-9 | an absent, empty or whitespace-only title is refused whatever the other fields are |
| TaskModel.BlankPeopleRejected | server/models/task.js:14-28 | an absent, empty or whitespace-only assignedTo or createdBy is refused |
| TaskModel.DescriptionOptional | server/models/task.js:10-13 | dropping the description from an acceptable body still gives the same task, without a description |
| TaskModel.UnknownStatusRejected | server/models/task.js:19-21 | a status outside the enum is refused however good the other fields are |
| TaskModel.StoredFieldsTrimStable | server/models/task.js:5-28 | trimming the stored title, description, assignedTo or createdBy of a valid task changes nothing |
| UserModel.ParseRole | server/models/user.js:7-11 | a string passes the role enum if and only if it is exactly "Admin", "Manager" or "Member", and it then names that role |
| UserModel.RoleRoundTrip | server/models/user.js:7-11 | every role survives being stored as its name and read back |
| UserModel.CastRole | server/models/user.js:7-11 | an absent role becomes Member; a present one must be spelt as an enum value |
| UserModel.HashPassword | server/index.js:79 | the stored hash is one that the plaintext password it was made from matches |
| UserModel.BuildUser | server/models/user.js:3-13 | the schema accepts a user if and only if name and email are non-empty and any role is an enum value; the stored user keeps name, email and hash and gets the given role or Member |
| UserModel.RequiredUserFields | server/models/user.js:4-6 | an absent or empty name, or an empty email, makes validation fail |
| Store.FindByEmail | server/index.js:37 | the lookup finds nothing if and only if no stored user has the email; otherwise it returns a user with that email |
| Store.FindByEmailUnique | server/models/user.js:5 | with unique emails, the user found by an email is the one stored under it |
| Authz.RefusalOnlyForOtherMembers | server/index.js:161-166 | only a Member can be refused, and only for a task assigned to someone else |
| Server.Login | server/index.js:33-54 | unknown email gives NotFound; a known email with a non-matching password gives InvalidCredential; success returns a token for a user with that email whose hash the password matches, with that user's stored role, and leaves the store unchanged |
| Server.LoginOfStoredUser | server/index.js:37-49 | with unique emails, a stored user's login succeeds if and only if the password matches their hash, and reports their role and id |
| Server.ListUsers | server/index.js:60-68 | every stored user is listed under its id with name, email and role, never the password; the store is unchanged |
| Server.CreateUser | server/index.js:70-94 | a taken email gives Conflict and nothing changes; success happens if and only if the email is free, a password is given, the schema accepts the fields and the id is new; it then adds exactly one user, holding a hash that the password matches, and changes no other user and no task |
| Server.CreateUserPreservesValid | server/index.js:74-88 | creating a user keeps every user valid and all emails unique |
| Server.CreateUserTwiceConflicts | server/index.js:74-77 | a second creation with the same email is refused with Conflict, whatever the name |
| Server.CreateThenListUsers | server/index.js:60-88 | a user just created is listed under its id with the name, email and role it was created with, and every earlier user is listed as before |
| Server.CreateThenLogin | server/index.js:37-88 | a user just created can log in with their password, and the login reports the role they were created with |
| Server.ListTasks | server/index.js:97-112 | returns exactly the stored tasks that match every non-empty filter: the status exactly, assignedTo and createdBy after trimming as the schema's setters do; unchanged and under their ids; the store is unchanged |
| Server.ListTasksUnfiltered | server/index.js:99-106 | with no non-empty filter, every stored task is listed |
| Server.ListTasksConjunctive | server/index.js:100-106 | a task is listed under a filter if and only if it is listed under each of the filter's parameters alone |
| Server.CreateTask | server/index.js:115-133 | success happens if and only if the schema accepts the body and the id is new; it then adds exactly the task the schema builds and changes no existing task and no user; every failure is InternalError with the store unchanged |
| Server.CreateTaskPreservesValid | server/index.js:119-127 | creating a task keeps every stored task valid |
| Server.CreateThenListByAssignee | server/index.js:97-133 | a created task is then listed when filtered by the assignee exactly as the body gave it, padding included, with its title, and with status "To Do" when none was given |
| Server.DeleteTask | server/index.js:136-147 | an unknown id gives NotFound with the store unchanged; a known id removes that task and no other, and no user changes |
| Server.DeleteTaskPreservesValid | server/index.js:141 | deleting a task keeps the store valid |
| Server.DeleteTwiceNotFound | server/index.js:138-141 | deleting the same id a second time gives NotFound |
| Server.UpdateStatus | server/index.js:150-176 | an invalid token gives InternalError; a missing task gives NotFound whatever the caller's role; an existing task with a token whose user is no longer stored gives InternalError; Forbidden happens if and only if the caller is neither the assignee nor Admin or Manager; a permitted caller with a status outside the enum gets InternalError; success happens if and only if the caller is permitted and the status is an enum value, and then only that task's status changes |
| Server.UpdateIgnoresTokenClaims | server/index.js:155-162 | the email and role claims inside the token do not affect the outcome; only the user id does |
| Server.UpdateStatusPreservesValid | server/index.js:168-169 | a successful status update keeps the store valid |
| Server.MemberTasks | server/index.js:179-204 | an empty or absent email gives BadRequest; an unknown email gives NotFound; it succeeds if and only if the email is non-empty and belongs to a stored user, and then returns exactly the tasks whose assignedTo is that user's trimmed name, with the store unchanged |
| Server.MemberTasksIsAssigneeFilter | server/index.js:187-195 | in a valid store, a member's task list equals the general listing filtered by that member's name |
| Routes.Handle | server/index.js:33-204 | reads leave the store unchanged; a failure leaves the store unchanged and is answered with its error's status code; creations are answered 201 and other successes 200; per route: login 404 exactly for an unknown email and 200 only with a token for a stored user whose hash the password matches; `/users` 200 listing every user id; `/users-send` 400 exactly for a taken email and 201 exactly when the email is free, a password is given, the schema accepts and the id is new, adding that id only; `GET /tasks` 200 with exactly the selected tasks; `/tasks-send` 201 exactly when the schema accepts and the id is new, adding that id, otherwise 500; `DELETE` 404 exactly for an unknown id, otherwise 200 removing that id; `PUT` 403 exactly for a caller who may not update, 200 exactly for a permitted caller with an enum status, setting that status; `/tasks-member` 400, 404 and 200 by the email |
| Routes.HandlePreservesValid | server/index.js:33-204 | every request keeps the store valid: users valid with unique emails, tasks valid |
| Routes.RunPreservesValid | server/index.js:33-204 | any sequence of requests that starts from a valid store ends in a valid store |
| Routes.ReadsLeaveStore | server/index.js:33-204 | a sequence made only of logins and listings leaves the store unchanged |
| Scenario.SeedStoreValid | server/seedUsers.js:28-72 | the seeded users form a valid store with unique emails |
| Scenario.ManagerCreatesTask | server/index.js:115-128 | Mike's task for Maya is stored with its fields and the default status "To Do" |
| Scenario.ManagerCreatesAfterCreate | server/index.js:115-128 | Mike's creation request leaves exactly the store the rest of the walk starts from |
| Scenario.MemberUpdatesOwnTask | server/index.js:150-199 | Maya logs in with the seeded password as a Member, moves the task assigned to them to "In Progress", and their own task list then shows it with that status |
| Scenario.OtherMemberForbidden | server/index.js:161-166 | John, a Member the task is not assigned to, is refused with Forbidden |
| Scenario.ManagerMayUpdateAnyTask | server/index.js:161-171 | Mike, a Manager, may update a task assigned to someone else |
| Scenario.UnknownStatusFails | server/index.js:168-174 | the status "Archived" fails on save, even for the task's owner |
| Scenario.PaddedAssigneeFilterLists | server/index.js:99-107 | filtering by "Maya Member " with a trailing space still lists Maya's task, because the filter is trimmed like the stored value |
| Findings.OwnerClauseDeadAsWritten | server/index.js:161-164 | as written, through the server's own User schema, exactly the privileged roles may update, whoever the task is assigned to |
| Findings.OwnerRefusedAsWritten | server/index.js:161-164 | as written, Maya is refused on the task assigned to them, while the corrected rule admits them |
| Findings.OwnerMayUpdate | server/index.js:161-166 | under the corrected rule the assignee may always update, and a Member may update exactly the tasks assigned to them |

## Findings

| source | as written | input that shows it | evidently intended | confidence | as-written member | corrected member |
|---|---|---|---|---|---|---|
| server/index.js:161 | The handlers use the `User` model that `server/index.js` declares for itself. Its schema has no `name` path, so `user.name` reads as undefined and `task.assignedTo === user.name` never holds. | Seeded Member Maya sends `PUT /tasks/:id` for the task assigned to "Maya Member" | The assignee may update their own task (owner-or-privileged) | medium, not executed; depends on Mongoose not exposing paths outside a strict schema as document properties | Findings.OwnerRefusedAsWritten | Findings.OwnerMayUpdate |

The same schema also drops `name` when `POST /users-send` creates a user. It
also checks neither the role enum nor the role default. The model follows
`server/models/user.js` for users, and checks the ownership rule against
the stored name (`Authz.MayUpdate`).

## Left out

- Express, CORS, the database connection, `listen` and `GET /` (server/index.js:1-23, 56-58, 207-209) are I/O plumbing.
- bcrypt is replaced by `UserModel.Digest`, a salted stand-in that is neither one-way nor collision-free. Every property is stated through `Matches`, so none relies on the digest's strength.
- JWT signing, expiry and the secret are not modelled. A token is `Invalid` or decodes to its claims. The literal signing key at server/index.js:45 differs from the configured verification key at server/index.js:155, which is configuration rather than logic.
- Timestamps (server/models/task.js:31, server/models/user.js:12) depend on the clock.
- Concurrent requests, last-write-wins, and duplicate-key races on the unique email index are not modelled. Requests are handled one at a time.
- The `.populate(...)` calls (server/index.js:196-197) do nothing on string paths.
- Malformed ids are not modelled. Ids are numbers, so the cast error that a malformed id raises in `findById` (a 500) cannot occur.
- JSON `null`, non-string body values, and repeated query parameters are not modelled. Fields are strings or absent.
- An absent `status` in the body of `PUT /tasks/:id` is not modelled. Saving a document with an unset path depends on Mongoose internals. The new status is always a string.
- An absent email or password in `/auth/login`, and an absent email in `/users-send`, are not modelled. How the query treats `undefined` depends on the driver. The model also leaves out `bcrypt.compare` throwing on an undefined password. An absent password in `/users-send` is modelled: it is a 500.
- Store.FindByEmail: when several users share an email (impossible in a valid store), it returns the least id rather than the first in the database's natural order.
- Server.CreateUser: follows the `User` schema of server/models/user.js (required name, role enum, default Member). The handler actually saves through the schema that server/index.js:25-31 declares, which has no `name` path and no role enum or default; that divergence is described under "## Findings".
- Server.ListUsers: lists the stored name as server/models/user.js declares it. The schema of server/index.js:25-31 does not declare `name`; the model assumes the stored value is still serialised, as `toObject()` at server/index.js:193 relies on. See "## Findings".
- Server.UpdateStatus: decides ownership with the stored name of the acting user (`Authz.MayUpdate`), the evidently intended rule. As written, the server's own `User` schema hides the name and a Member assignee gets 403; see "## Findings". `Scenario.MemberUpdatesOwnTask` and `Scenario.OtherMemberForbidden` follow the same corrected rule.
- Listing results are maps from id to document. The order of the JSON array is not modelled.
- Response messages and server-side logging are not modelled. Only the status code and the payload are.
- Routes.Run: its own contract states only that there is one reply per request. The invariants it keeps are stated by `Routes.RunPreservesValid` and `Routes.ReadsLeaveStore`.
- The client pages (`client/src`) are UI and routing glue. The seeding script's I/O is left out; its users appear in `Scenario`.

=== FILE: authz.dfy ===
/** Session tokens and the owner-or-privileged rule of `PUT /tasks/:id`
    (server/index.js:150-166). Signing and verification are not modelled:
    a token either fails verification or decodes to the claims it was
    signed with. */
module Authz {
  import opened TaskModel
  import opened UserModel
  import opened Store

  /** The outcome of `jwt.verify` on the bearer token: `Invalid` for a
      missing, malformed, expired or wrongly signed token. */
  datatype Token = Invalid | Decoded(id: UserId, email: string, role: Role)

  /** Admin and Manager may act on tasks they are not assigned. */
  predicate IsPrivileged(role: Role) {
    role == Admin || role == Manager
  }

  /** The owner of a task is the user whose name is its `assignedTo`. */
  predicate IsOwner(t: Task, u: User) {
    t.assignedTo == u.name
  }

  /** The acting user may change the task's status. */
  predicate MayUpdate(t: Task, u: User) {
    IsOwner(t, u) || IsPrivileged(u.role)
  }

  /** Only a Member can be refused, and only on a task assigned to someone else. */
  lemma RefusalOnlyForOtherMembers(t: Task, u: User)
    requires !MayUpdate(t, u)
    ensures u.role == Member && t.assignedTo != u.name
  {
  }
}

=== FILE: findings.dfy ===
/** server/index.js declares and registers its own `User` model (lines 25-31)
    whose schema has only `email`, `password` and `role`; the handlers use
    that model, not the one of server/models/user.js. A path outside the
    schema is not readable as a document property, so `user.name` at line 161
    is undefined for every user, and the owner clause of the update rule can
    never hold. The rest of the model uses the evidently intended rule,
    `Authz.MayUpdate`, which reads the stored name. */
module Findings {
  import opened Values
  import opened TaskModel
  import opened UserModel
  import opened Authz
  import opened Scenario

  /** A stored user as the server's own model presents it: `name` reads as
      undefined, `role` as the stored string. */
  datatype IndexUserDoc = IndexUserDoc(name: Option<string>, email: string, role: Option<string>)

  function ReadThroughIndexSchema(u: User): IndexUserDoc {
    IndexUserDoc(None, u.email, Some(RoleName(u.role)))
  }

  /** Lines 161-164 as written, on the document the server's own model
      returns: owner if `assignedTo === user.name`, privileged if the role
      string is "Admin" or "Manager". */
  predicate MayUpdateAsWritten(t: Task, d: IndexUserDoc) {
    || (d.name.Some? && t.assignedTo == d.name.value)
    || d.role == Some("Admin")
    || d.role == Some("Manager")
  }

  /** As written, the owner clause is dead: exactly the privileged roles may
      update, whoever the task is assigned to. */
  lemma OwnerClauseDeadAsWritten(t: Task, u: User)
    ensures MayUpdateAsWritten(t, ReadThroughIndexSchema(u)) <==> IsPrivileged(u.role)
  {
  }

  /** The input that shows it: Maya, a Member, owns the task Mike created for
      them, yet the check as written refuses them; the corrected rule admits
      them. */
  lemma OwnerRefusedAsWritten()
    ensures var t := AfterCreate().tasks[1];
      var maya := SeedUsers[2];
      && !MayUpdateAsWritten(t, ReadThroughIndexSchema(maya))
      && MayUpdate(t, maya)
  {
    OwnerClauseDeadAsWritten(AfterCreate().tasks[1], SeedUsers[2]);
  }

  /** The corrected rule: a task's assignee may always update it, whatever
      their role, and a Member may update no other task. */
  lemma OwnerMayUpdate(t: Task, u: User)
    ensures IsOwner(t, u) ==> MayUpdate(t, u)
    ensures u.role == Member ==> (MayUpdate(t, u) <==> t.assignedTo == u.name)
  {
  }
}

=== FILE: routes.dfy ===
/** The routes of server/index.js: a request names one handler, and the reply
    carries the status code the handler answers with. A run is a sequence of
    requests handled one after the other. */
module Routes {
  import opened Values
  import opened TaskModel
  import opened UserModel
  import opened Store
  import opened Authz
  import opened Server

  /** One request. Ids and salts the database and bcrypt would generate are
      carried by the request. */
  datatype Request =
    | LoginRequest(email: string, password: string)
    | ListUsersRequest
    | CreateUserRequest(userId: UserId, salt: nat, user: UserInput)
    | ListTasksRequest(filter: Filter)
    | CreateTaskRequest(taskId: TaskId, task: TaskInput)
    | DeleteTaskRequest(taskId: TaskId)
    | UpdateStatusRequest(taskId: TaskId, status: string, token: Token)
    | MemberTasksRequest(assignedTo: Option<string>)

  /** Requests that only read the store. */
  predicate IsRead(req: Request) {
    req.LoginRequest? || req.ListUsersRequest? || req.ListTasksRequest? || req.MemberTasksRequest?
  }

  datatype Body =
    | SessionBody(session: Session)
    | UsersBody(users: map<UserId, UserView>)
    | UserBody(user: User)
    | TasksBody(tasks: map<TaskId, Task>)
    | TaskBody(task: Task)
    | MessageBody
    | ErrorBody(error: Error)

  datatype Reply = Reply(code: nat, body: Body)

  /** The store after a handler's outcome and the reply sent for it. */
  function Answer<T>(s: Store, o: Outcome<T>, code: nat, wrap: T -> Body): (Store, Reply) {
    match o
    case Ok(v, s') => (s', Reply(code, wrap(v)))
    case Err(e) => (s, Reply(ErrorStatus(e), ErrorBody(e)))
  }

  /** Dispatches a request to its handler. Reads leave the store as it was;
      a failure leaves it as it was and is answered with its error's code;
      creations are answered 201 and every other success 200. */
  function Handle(s: Store, req: Request): (r: (Store, Reply))
    ensures IsRead(req) ==> r.0 == s
    ensures r.1.body.ErrorBody? ==> r.0 == s && r.1.code == ErrorStatus(r.1.body.error)
    ensures !r.1.body.ErrorBody? ==>
      r.1.code == (if req.CreateUserRequest? || req.CreateTaskRequest? then 201 else 200)
    // The status table of each route (server/index.js), in terms of the store.
    ensures req.LoginRequest? ==>
      && (r.1.code == 404 <==> !EmailTaken(s.users, req.email))
      && (r.1.code == 200 ==>
            && r.1.body.SessionBody? && r.1.body.session.token.Decoded?
            && var id := r.1.body.session.token.id;
               id in s.users && s.users[id].email == req.email
               && Matches(req.password, s.users[id].password))
    ensures req.ListUsersRequest? ==>
      r.1.code == 200 && r.1.body.UsersBody? && r.1.body.users.Keys == s.users.Keys
    ensures req.CreateUserRequest? ==>
      && (r.1.code == 400 <==> EmailTaken(s.users, req.user.email))
      && (r.1.code == 201 <==>
            && !EmailTaken(s.users, req.user.email) && req.user.password.Some?
            && AcceptsUser(req.user) && req.userId !in s.users)
      && (r.1.code == 201 ==>
            r.0.users.Keys == s.users.Keys + {req.userId} && r.0.tasks == s.tasks)
      && (r.1.code != 201 ==> r.0 == s)
    ensures req.ListTasksRequest? ==>
      && r.1.code == 200 && r.1.body.TasksBody?
      && forall id :: id in r.1.body.tasks <==> id in s.tasks && Selects(req.filter, s.tasks[id])
    ensures req.CreateTaskRequest? ==>
      && (r.1.code == 201 <==> AcceptsTask(req.task) && req.taskId !in s.tasks)
      && (r.1.code != 201 ==> r.1.code == 500 && r.0 == s)
      && (r.1.code == 201 ==>
            r.0.tasks.Keys == s.tasks.Keys + {req.taskId} && r.0.users == s.users)
    ensures req.DeleteTaskRequest? ==>
      && (r.1.code == 404 <==> req.taskId !in s.tasks)
      && (r.1.code != 404 ==>
            && r.1.code == 200
            && r.0.tasks.Keys == s.tasks.Keys - {req.taskId} && r.0.users == s.users)
    ensures req.UpdateStatusRequest? ==>
      && (r.1.code == 403 <==>
            && req.token.Decoded? && req.taskId in s.tasks && req.token.id in s.users
            && !MayUpdate(s.tasks[req.taskId], s.users[req.token.id]))
      && (r.1.code == 200 <==>
            && req.token.Decoded? && req.taskId in s.tasks && req.token.id in s.users
            && MayUpdate(s.tasks[req.taskId], s.users[req.token.id])
            && req.status in StatusNames)
      && (r.1.code == 200 ==>
            && r.0.users == s.users && r.0.tasks.Keys == s.tasks.Keys
            && StatusName(r.0.tasks[req.taskId].status) == req.status)
    ensures req.MemberTasksRequest? ==>
      && (r.1.code == 400 <==> !Truthy(req.assignedTo))
      && (r.1.code == 404 <==> Truthy(req.assignedTo) && !EmailTaken(s.users, req.assignedTo.value))
      && (r.1.code == 200 <==> Truthy(req.assignedTo) && EmailTaken(s.users, req.assignedTo.value))
  {
    match req
    case LoginRequest(email, password) =>
      Answer(s, Login(s, email, password), 200, (v: Session) => SessionBody(v))
    case ListUsersRequest =>
      Answer(s, ListUsers(s), 200, (v: map<UserId, UserView>) => UsersBody(v))
    case CreateUserRequest(id, salt, input) =>
      Answer(s, CreateUser(s, id, salt, input), 201, (v: User) => UserBody(v))
    case ListTasksRequest(f) =>
      Answer(s, ListTasks(s, f), 200, (v: map<TaskId, Task>) => TasksBody(v))
    case CreateTaskRequest(id, input) =>
      Answer(s, CreateTask(s, id, input), 201, (v: Task) => TaskBody(v))
    case DeleteTaskRequest(id) =>
      Answer(s, DeleteTask(s, id), 200, (v: ()) => MessageBody)
    case UpdateStatusRequest(id, status, token) =>
      Answer(s, UpdateStatus(s, id, status, token), 200, (v: Task) => TaskBody(v))
    case MemberTasksRequest(assignedTo) =>
      Answer(s, MemberTasks(s, assignedTo), 200, (v: map<TaskId, Task>) => TasksBody(v))
  }

  /** Every request keeps the store valid: users valid with unique emails,
      tasks valid (trimmed, required fields present, status in the enum). */
  lemma HandlePreservesValid(s: Store, req: Request)
    requires ValidStore(s)
    ensures ValidStore(Handle(s, req).0)
  {
    match req
    case CreateUserRequest(id, salt, input) =>
      if CreateUser(s, id, salt, input).Ok? {
        CreateUserPreservesValid(s, id, salt, input);
      }
    case CreateTaskRequest(id, input) =>
      if CreateTask(s, id, input).Ok? {
        CreateTaskPreservesValid(s, id, input);
      }
    case DeleteTaskRequest(id) =>
      if DeleteTask(s, id).Ok? {
        DeleteTaskPreservesValid(s, id);
      }
    case UpdateStatusRequest(id, status, token) =>
      if UpdateStatus(s, id, status, token).Ok? {
        UpdateStatusPreservesValid(s, id, status, token);
      }
    case _ =>
  }

  /** Handles the requests in order: the final store and one reply per request. */
  function Run(s: Store, reqs: seq<Request>): (r: (Store, seq<Reply>))
    ensures |r.1| == |reqs|
    decreases |reqs|
  {
    if reqs == [] then (s, [])
    else
      var first := Handle(s, reqs[0]);
      var rest := Run(first.0, reqs[1..]);
      (rest.0, [first.1] + rest.1)
  }

  /** A run of any length, starting from a valid store, ends in a valid store. */
  lemma {:induction false} RunPreservesValid(s: Store, reqs: seq<Request>)
    requires ValidStore(s)
    ensures ValidStore(Run(s, reqs).0)
    decreases |reqs|
  {
    if reqs != [] {
      HandlePreservesValid(s, reqs[0]);
      RunPreservesValid(Handle(s, reqs[0]).0, reqs[1..]);
    }
  }

  /** A run made only of reads leaves the store as it was. */
  lemma {:induction false} ReadsLeaveStore(s: Store, reqs: seq<Request>)
    requires forall i :: 0 <= i < |reqs| ==> IsRead(reqs[i])
    ensures Run(s, reqs).0 == s
    decreases |reqs|
  {
    if reqs != [] {
      ReadsLeaveStore(s, reqs[1..]);
    }
  }
}

=== FILE: scenario.dfy ===
/** The demo users of server/seedUsers.js as a concrete store, and the
    end-to-end walk through the task lifecycle: a manager creates a task for
    a member, the member moves it along, another member may not. */
module Scenario {
  import opened Values
  import opened TaskModel
  import opened UserModel
  import opened Store
  import opened Authz
  import opened Server

  /** Every seeded user shares one hash of "password123". bcrypt draws its
      salt at random; any fixed value stands in for it here (the 10 passed to
      `bcrypt.hash` in server/seedUsers.js is the cost factor, not a salt). */
  const SeedSalt: nat := 4093
  const SeedPassword: string := "password123"

  function SeedHash(): Hash {
    HashPassword(SeedPassword, SeedSalt)
  }

  /** The seeded users, in insertion order. */
  const SeedUsers: seq<User> := [
    User("Alice Admin", "alice@admin.com", SeedHash(), Admin),
    User("Mike Manager", "mike@manager.com", SeedHash(), Manager),
    User("Maya Member", "maya@member.com", SeedHash(), Member),
    User("John Member", "john@member.com", SeedHash(), Member),
    User("Sara Member", "sara@member.com", SeedHash(), Member),
    User("Liam Member", "liam@member.com", SeedHash(), Member),
    User("Zara Member", "zara@member.com", SeedHash(), Member)]

  /** The seeded users keyed by position (Alice 0, Mike 1, Maya 2, John 3); no tasks. */
  function SeedStore(): Store {
    Store(map id | 0 <= id < |SeedUsers| :: SeedUsers[id], map[])
  }

  /** The seeded store satisfies the schema invariants. */
  lemma SeedStoreValid()
    ensures ValidStore(SeedStore())
  {
    assert forall i, j :: 0 <= i < |SeedUsers| && 0 <= j < |SeedUsers| && SeedUsers[i].email == SeedUsers[j].email ==> i == j;
  }

  /** The task Mike creates for Maya. */
  const MayaTask: TaskInput :=
    TaskInput(Some("Write report"), None, Some("Maya Member"), Some("Mike Manager"), None)

  /** Mike creates a task assigned to Maya: it is stored with the given
      fields and the default status. */
  lemma ManagerCreatesTask()
    ensures var c := CreateTask(SeedStore(), 1, MayaTask);
      && c.Ok?
      && c.value == Task("Write report", None, "Maya Member", "Mike Manager", ToDo)
  {
    Text.TrimFixesExactlyTrimmed("Write report");
    Text.TrimFixesExactlyTrimmed("Maya Member");
    Text.TrimFixesExactlyTrimmed("Mike Manager");
    assert AcceptsTask(MayaTask);
    var b := BuildTask(MayaTask);
    assert b.Some?;
    assert b.value == Task("Write report", None, "Maya Member", "Mike Manager", ToDo);
  }

  /** The store after Mike's creation, written out. */
  function AfterCreate(): Store {
    PutTask(SeedStore(), 1, Task("Write report", None, "Maya Member", "Mike Manager", ToDo))
  }

  /** A successful creation stores exactly its task under the new id. */
  lemma CreateTaskIsPut(s: Store, id: TaskId, input: TaskInput)
    requires CreateTask(s, id, input).Ok?
    ensures CreateTask(s, id, input).store == PutTask(s, id, CreateTask(s, id, input).value)
  {
  }

  /** The walk is connected: Mike's request leaves exactly `AfterCreate()`,
      the store the later steps start from. */
  lemma ManagerCreatesAfterCreate()
    ensures CreateTask(SeedStore(), 1, MayaTask).store == AfterCreate()
  {
    var c := CreateTask(SeedStore(), 1, MayaTask);
    assert c.Ok? && c.value == Task("Write report", None, "Maya Member", "Mike Manager", ToDo) by {
      ManagerCreatesTask();
    }
    CreateTaskIsPut(SeedStore(), 1, MayaTask);
  }

  /** Maya logs in with the seeded password, moves the task assigned to them
      to "In Progress", and then sees it in their own task list with the new
      status. */
  lemma MemberUpdatesOwnTask()
    ensures var login := Login(AfterCreate(), "maya@member.com", SeedPassword);
      && login.Ok? && login.value.role == Member
      && var u := UpdateStatus(AfterCreate(), 1, "In Progress", login.value.token);
      && u.Ok?
      && var mine := MemberTasks(u.store, Some("maya@member.com"));
      && mine.Ok? && 1 in mine.value && mine.value[1].status == InProgress
  {
    SeedStoreValid();
    Text.TrimFixesExactlyTrimmed("Maya Member");
    var s := AfterCreate();
    assert s.users == SeedStore().users;
    assert s.users[2] == SeedUsers[2];
    LoginOfStoredUser(s, 2, SeedPassword);
    var login := Login(s, "maya@member.com", SeedPassword);
    assert login.Ok? && login.value.token.id == 2;
    var u := UpdateStatus(s, 1, "In Progress", login.value.token);
    assert u.Ok?;
    assert u.store.users == s.users;
    FindByEmailUnique(u.store.users, 2);
  }

  /** John, a member the task is not assigned to, is refused, and the store
      stays as it was. */
  lemma OtherMemberForbidden()
    ensures UpdateStatus(AfterCreate(), 1, "Done", Decoded(3, "john@member.com", Member)) == Err(Forbidden)
  {
  }

  /** Mike, a manager, may move a task not assigned to them. */
  lemma ManagerMayUpdateAnyTask()
    ensures UpdateStatus(AfterCreate(), 1, "Done", Decoded(1, "mike@manager.com", Manager)).Ok?
  {
  }

  /** A status outside the enum fails on save, even for the owner. */
  lemma UnknownStatusFails()
    ensures UpdateStatus(AfterCreate(), 1, "Archived", Decoded(2, "maya@member.com", Member)) == Err(InternalError)
  {
  }

  /** The assignee filter is trimmed like the stored value: asking for
      "Maya Member " with a trailing space still lists Maya's task. */
  lemma PaddedAssigneeFilterLists()
    ensures 1 in ListTasks(AfterCreate(), Filter(None, Some("Maya Member "), None)).value
  {
    assert Text.Trim("Maya Member ") == "Maya Member" by {
      assert Text.TrimStart("Maya Member ") == "Maya Member ";
      assert Text.TrimEnd("Maya Member ") == "Maya Member";
    }
  }
}

=== FILE: server.dfy ===
/** The request handlers of server/index.js, each a pure function from the
    store and the request's inputs to an error or a result with the store
    after the request. An error carries no store: a failing request leaves
    both collections as they were. */
module Server {
  import opened Values
  import opened Text
  import opened TaskModel
  import opened UserModel
  import opened Store
  import opened Authz

  /** The ways a request fails, each with the status code it is answered with. */
  datatype Error =
    | NotFound           // 404
    | Forbidden          // 403
    | Conflict           // 400, "User already exists"
    | InvalidCredential  // 401
    | BadRequest         // 400, missing query parameter
    | InternalError      // 500, any exception caught by the handler

  function ErrorStatus(e: Error): (code: nat)
    ensures 400 <= code < 600
  {
    match e
    case NotFound => 404
    case Forbidden => 403
    case Conflict => 400
    case InvalidCredential => 401
    case BadRequest => 400
    case InternalError => 500
  }

  datatype Outcome<+T> = Ok(value: T, store: Store) | Err(error: Error)

  // ---------------------------------------------------------------- /auth/login

  /** The body of a successful login: the token and the stored role. */
  datatype Session = Session(token: Token, role: Role)

  /** `POST /auth/login` (server/index.js:33-54). */
  function Login(s: Store, email: string, password: string): (r: Outcome<Session>)
    ensures r == Err(NotFound) <==> !EmailTaken(s.users, email)
    ensures r.Err? ==> r.error == NotFound || r.error == InvalidCredential
    ensures r == Err(InvalidCredential) ==>
      var id := FindByEmail(s.users, email).value;
      !Matches(password, s.users[id].password)
    ensures r.Ok? ==>
      && r.store == s
      && r.value.token.Decoded?
      && var id := r.value.token.id;
      && id in s.users
      && s.users[id].email == email
      && Matches(password, s.users[id].password)
      && r.value.role == s.users[id].role
      && r.value.token.role == s.users[id].role
  {
    match FindByEmail(s.users, email)
    case None => Err(NotFound)
    case Some(id) =>
      var user := s.users[id];
      if !Matches(password, user.password) then Err(InvalidCredential)
      else Ok(Session(Decoded(id, user.email, user.role), user.role), s)
  }

  /** With unique emails, the login of a stored user succeeds exactly when the
      password matches that user's hash, and then reports that user's role. */
  lemma LoginOfStoredUser(s: Store, id: UserId, password: string)
    requires UniqueEmails(s.users) && id in s.users
    ensures var r := Login(s, s.users[id].email, password);
      && (r.Ok? <==> Matches(password, s.users[id].password))
      && (r.Err? ==> r.error == InvalidCredential)
      && (r.Ok? ==> r.value.role == s.users[id].role && r.value.token.id == id)
  {
    FindByEmailUnique(s.users, id);
  }

  // ---------------------------------------------------------------- /users

  /** A user as listed: the projection `"name email role"` leaves the password out. */
  datatype UserView = UserView(name: string, email: string, role: Role)

  /** `GET /users` (server/index.js:60-68). */
  function ListUsers(s: Store): (r: Outcome<map<UserId, UserView>>)
    ensures r.Ok? && r.store == s
    ensures r.value.Keys == s.users.Keys
    ensures forall id :: id in r.value ==>
      var u := s.users[id];
      r.value[id] == UserView(u.name, u.email, u.role)
  {
    Ok(map id | id in s.users :: UserView(s.users[id].name, s.users[id].email, s.users[id].role), s)
  }

  // ---------------------------------------------------------------- /users-send

  /** `POST /users-send` (server/index.js:70-94): refuse a taken email, hash
      the password with the given salt, build and save the user under `id`. */
  function CreateUser(s: Store, id: UserId, salt: nat, input: UserInput): (r: Outcome<User>)
    ensures r == Err(Conflict) <==> EmailTaken(s.users, input.email)
    ensures r.Err? ==> r.error == Conflict || r.error == InternalError
    ensures r.Ok? <==>
      && !EmailTaken(s.users, input.email)
      && input.password.Some?
      && AcceptsUser(input)
      && id !in s.users
    ensures r.Ok? ==>
      && r.store.tasks == s.tasks
      && r.store.users.Keys == s.users.Keys + {id}
      && (forall k :: k in s.users ==> r.store.users[k] == s.users[k])
      && r.store.users[id] == r.value
      && ValidUser(r.value)
      && r.value.name == input.name.value
      && r.value.email == input.email
      && Matches(input.password.value, r.value.password)
      && (input.role.None? ==> r.value.role == DefaultRole)
      && (input.role.Some? ==> RoleName(r.value.role) == input.role.value)
  {
    match FindByEmail(s.users, input.email)
    case Some(_) => Err(Conflict)
    case None =>
      match input.password
      case None => Err(InternalError)  // bcrypt.hash rejects an undefined password
      case Some(password) =>
        match BuildUser(input, HashPassword(password, salt))
        case None => Err(InternalError)  // validation fails in save()
        case Some(user) =>
          if id in s.users then Err(InternalError)  // duplicate key on insert
          else Ok(user, PutUser(s, id, user))
  }

  /** Creating a user keeps the emails unique and every stored user valid. */
  lemma CreateUserPreservesValid(s: Store, id: UserId, salt: nat, input: UserInput)
    requires ValidStore(s)
    requires CreateUser(s, id, salt, input).Ok?
    ensures ValidStore(CreateUser(s, id, salt, input).store)
  {
  }

  /** A second creation with the same email is refused, whatever the name,
      and the users collection is as the first creation left it. */
  lemma CreateUserTwiceConflicts(s: Store, id: UserId, id2: UserId, salt: nat, salt2: nat, input: UserInput, input2: UserInput)
    requires CreateUser(s, id, salt, input).Ok?
    requires input2.email == input.email
    ensures CreateUser(CreateUser(s, id, salt, input).store, id2, salt2, input2) == Err(Conflict)
  {
    var s' := CreateUser(s, id, salt, input).store;
    assert s'.users[id].email == input2.email;
  }

  /** Round trip: a user just created can log in with the password it was
      created with, and the login reports the role it was created with. */
  lemma CreateThenLogin(s: Store, id: UserId, salt: nat, input: UserInput)
    requires ValidStore(s)
    requires CreateUser(s, id, salt, input).Ok?
    ensures var c := CreateUser(s, id, salt, input);
      var r := Login(c.store, input.email, input.password.value);
      r.Ok? && r.value.role == c.value.role && r.value.token.id == id
  {
    CreateUserPreservesValid(s, id, salt, input);
    var c := CreateUser(s, id, salt, input);
    LoginOfStoredUser(c.store, id, input.password.value);
  }

  /** Round trip: a user just created is listed under its id with the name,
      email and role it was created with, and every earlier user is still
      listed as before. */
  lemma CreateThenListUsers(s: Store, id: UserId, salt: nat, input: UserInput)
    requires CreateUser(s, id, salt, input).Ok?
    ensures var c := CreateUser(s, id, salt, input);
      var listed := ListUsers(c.store).value;
      && listed.Keys == s.users.Keys + {id}
      && listed[id] == UserView(input.name.value, input.email, c.value.role)
      && (forall k :: k in s.users ==> listed[k] == ListUsers(s).value[k])
  {
  }

  // ---------------------------------------------------------------- GET /tasks

  /** The query string of `GET /tasks`; `None` is an absent parameter. */
  datatype Filter = Filter(status: Option<string>, assignedTo: Option<string>, createdBy: Option<string>)

  /** The task paths a query document can constrain. */
  datatype Path = StatusPath | AssignedToPath | CreatedByPath

  /** The stored string at a path. */
  function PathValue(t: Task, p: Path): string {
    match p
    case StatusPath => StatusName(t.status)
    case AssignedToPath => t.assignedTo
    case CreatedByPath => t.createdBy
  }

  /** A query document: each path it mentions must hold exactly that string. */
  type Query = map<Path, string>

  /** `Model.find(query)`: the stored documents that agree with every entry
      of the query, under their own ids. */
  function Find(tasks: map<TaskId, Task>, q: Query): (r: map<TaskId, Task>)
    ensures r.Keys <= tasks.Keys
    ensures forall id :: id in r ==> r[id] == tasks[id]
  {
    map id | id in tasks && (forall p :: p in q ==> PathValue(tasks[id], p) == q[p]) :: tasks[id]
  }

  /** Mongoose casts a query value through the path's setters, so a value for
      a `trim: true` path (server/models/task.js:16, 26) is trimmed before it
      is compared; `status` has no setter. */
  function CastQueryValue(p: Path, v: string): string {
    match p
    case StatusPath => v
    case AssignedToPath => Trim(v)
    case CreatedByPath => Trim(v)
  }

  /** The query document built from the request (server/index.js:100-104):
      a parameter enters it only when its raw value is truthy, and it enters
      cast as `Task.find` casts it. */
  function QueryOf(f: Filter): Query {
    var q0: Query := map[];
    var q1 := if Truthy(f.status) then q0[StatusPath := CastQueryValue(StatusPath, f.status.value)] else q0;
    var q2 := if Truthy(f.assignedTo) then q1[AssignedToPath := CastQueryValue(AssignedToPath, f.assignedTo.value)] else q1;
    if Truthy(f.createdBy) then q2[CreatedByPath := CastQueryValue(CreatedByPath, f.createdBy.value)] else q2
  }

  /** A task satisfies the filter: the status equals a non-empty status
      parameter exactly, and the assignee and creator equal the trimmed
      non-empty parameters; absent and empty parameters impose nothing. */
  predicate Selects(f: Filter, t: Task) {
    && (Truthy(f.status) ==> StatusName(t.status) == f.status.value)
    && (Truthy(f.assignedTo) ==> t.assignedTo == Trim(f.assignedTo.value))
    && (Truthy(f.createdBy) ==> t.createdBy == Trim(f.createdBy.value))
  }

  /** `GET /tasks` (server/index.js:97-112): exactly the stored tasks that
      satisfy every given filter, and the store is left as it was. */
  function ListTasks(s: Store, f: Filter): (r: Outcome<map<TaskId, Task>>)
    ensures r.Ok? && r.store == s
    ensures forall id :: id in r.value <==> id in s.tasks && Selects(f, s.tasks[id])
    ensures forall id :: id in r.value ==> r.value[id] == s.tasks[id]
  {
    var q := QueryOf(f);
    var found := Find(s.tasks, q);
    assert forall id :: id in found <==> id in s.tasks && Selects(f, s.tasks[id]) by {
      forall id | id in s.tasks
        ensures id in found <==> Selects(f, s.tasks[id])
      {
        var t := s.tasks[id];
        if Selects(f, t) {
          assert forall p :: p in q ==> PathValue(t, p) == q[p];
        } else if Truthy(f.status) && StatusName(t.status) != f.status.value {
          assert StatusPath in q && PathValue(t, StatusPath) != q[StatusPath];
        } else if Truthy(f.assignedTo) && t.assignedTo != Trim(f.assignedTo.value) {
          assert AssignedToPath in q && PathValue(t, AssignedToPath) != q[AssignedToPath];
        } else {
          assert CreatedByPath in q && PathValue(t, CreatedByPath) != q[CreatedByPath];
        }
      }
    }
    Ok(found, s)
  }

  /** Without any (non-empty) parameter, every stored task is listed. */
  lemma ListTasksUnfiltered(s: Store, f: Filter)
    requires !Truthy(f.status) && !Truthy(f.assignedTo) && !Truthy(f.createdBy)
    ensures ListTasks(s, f).value == s.tasks
  {
  }

  /** The filters combine by conjunction: a task is listed under a filter
      exactly when it is listed under each of its parameters alone. */
  lemma ListTasksConjunctive(s: Store, f: Filter, id: TaskId)
    ensures id in ListTasks(s, f).value <==>
      && id in ListTasks(s, Filter(f.status, None, None)).value
      && id in ListTasks(s, Filter(None, f.assignedTo, None)).value
      && id in ListTasks(s, Filter(None, None, f.createdBy)).value
  {
  }

  // ---------------------------------------------------------------- /tasks-send

  /** `POST /tasks-send` (server/index.js:115-133): build the task from the
      body and save it under `id`; any validation failure is answered 500. */
  function CreateTask(s: Store, id: TaskId, input: TaskInput): (r: Outcome<Task>)
    ensures r.Err? ==> r.error == InternalError
    ensures r.Ok? <==> AcceptsTask(input) && id !in s.tasks
    ensures r.Ok? ==>
      && r.store.users == s.users
      && r.store.tasks.Keys == s.tasks.Keys + {id}
      && (forall k :: k in s.tasks ==> r.store.tasks[k] == s.tasks[k])
      && r.store.tasks[id] == r.value
      && BuildTask(input) == Some(r.value)
  {
    match BuildTask(input)
    case None => Err(InternalError)  // validation fails in save()
    case Some(task) =>
      if id in s.tasks then Err(InternalError)  // duplicate key on insert
      else Ok(task, PutTask(s, id, task))
  }

  /** Creating a task keeps every stored task valid. */
  lemma CreateTaskPreservesValid(s: Store, id: TaskId, input: TaskInput)
    requires ValidStore(s)
    requires CreateTask(s, id, input).Ok?
    ensures ValidStore(CreateTask(s, id, input).store)
  {
    var r := CreateTask(s, id, input);
    BuildTaskValid(input);
    assert ValidTask(r.value);
    forall k | k in r.store.tasks ensures ValidTask(r.store.tasks[k]) {
      if k != id {
        assert r.store.tasks[k] == s.tasks[k];
      }
    }
  }

  /** Round trip: a created task is listed when filtered by the assignee
      exactly as the body gave it (the query trims it as the save did), with
      the status it was given, or "To Do" when it was given none. */
  lemma CreateThenListByAssignee(s: Store, id: TaskId, input: TaskInput)
    requires CreateTask(s, id, input).Ok?
    ensures var c := CreateTask(s, id, input);
      var listed := ListTasks(c.store, Filter(None, input.assignedTo, None)).value;
      && id in listed
      && listed[id].title == Trim(input.title.value)
      && (input.status.None? ==> listed[id].status == ToDo)
  {
    var c := CreateTask(s, id, input);
    var t := c.value;
    assert t.assignedTo == Trim(input.assignedTo.value);
    var f := Filter(None, input.assignedTo, None);
    assert Selects(f, c.store.tasks[id]);
  }

  // ---------------------------------------------------------------- DELETE /tasks/:id

  /** `DELETE /tasks/:id` (server/index.js:136-147). */
  function DeleteTask(s: Store, id: TaskId): (r: Outcome<()>)
    ensures r.Err? ==> r.error == NotFound
    ensures r.Err? <==> id !in s.tasks
    ensures r.Ok? ==>
      && r.store.users == s.users
      && r.store.tasks.Keys == s.tasks.Keys - {id}
      && (forall k :: k in r.store.tasks ==> r.store.tasks[k] == s.tasks[k])
  {
    if id !in s.tasks then Err(NotFound)
    else Ok((), RemoveTask(s, id))
  }

  /** Deleting a task keeps the store valid. */
  lemma DeleteTaskPreservesValid(s: Store, id: TaskId)
    requires ValidStore(s)
    requires DeleteTask(s, id).Ok?
    ensures ValidStore(DeleteTask(s, id).store)
  {
  }

  /** Deletion is not idempotent: deleting the same id again is `NotFound`. */
  lemma DeleteTwiceNotFound(s: Store, id: TaskId)
    requires DeleteTask(s, id).Ok?
    ensures DeleteTask(DeleteTask(s, id).store, id) == Err(NotFound)
  {
  }

  // ---------------------------------------------------------------- PUT /tasks/:id

  /** `PUT /tasks/:id` (server/index.js:150-176). The token is verified first
      (a failure throws: 500); then the task is looked up (404); then the
      acting user is read from the store, not from the token's role claim
      (a missing user makes `user.name` throw: 500); then the
      owner-or-privileged rule (403); then the new status is saved, and a
      status outside the enum fails validation (500). */
  function UpdateStatus(s: Store, id: TaskId, status: string, token: Token): (r: Outcome<Task>)
    ensures token.Invalid? ==> r == Err(InternalError)
    ensures token.Decoded? ==> (r == Err(NotFound) <==> id !in s.tasks)
    ensures token.Decoded? && id in s.tasks && token.id !in s.users ==> r == Err(InternalError)
    ensures r == Err(Forbidden) <==>
      && token.Decoded? && id in s.tasks && token.id in s.users
      && !MayUpdate(s.tasks[id], s.users[token.id])
    ensures r.Ok? <==>
      && token.Decoded? && id in s.tasks && token.id in s.users
      && MayUpdate(s.tasks[id], s.users[token.id])
      && status in StatusNames
    ensures
      && token.Decoded? && id in s.tasks && token.id in s.users
      && MayUpdate(s.tasks[id], s.users[token.id])
      && status !in StatusNames
      ==> r == Err(InternalError)
    ensures r.Ok? ==>
      && r.store.users == s.users
      && r.store.tasks.Keys == s.tasks.Keys
      && (forall k :: k in s.tasks && k != id ==> r.store.tasks[k] == s.tasks[k])
      && r.store.tasks[id] == r.value
      && StatusName(r.value.status) == status
      && r.value.(status := s.tasks[id].status) == s.tasks[id]
  {
    match token
    case Invalid => Err(InternalError)
    case Decoded(uid, _, _) =>
      if id !in s.tasks then Err(NotFound)
      else if uid !in s.users then Err(InternalError)
      else
        var task := s.tasks[id];
        if !MayUpdate(task, s.users[uid]) then Err(Forbidden)
        else
          match ParseStatus(status)
          case None => Err(InternalError)  // enum validation fails in save()
          case Some(st) =>
            var updated := task.(status := st);
            Ok(updated, PutTask(s, id, updated))
  }

  /** The role claim inside the token plays no part: only the user id it
      carries is used, and the role is re-read from the store. */
  lemma UpdateIgnoresTokenClaims(s: Store, id: TaskId, status: string, uid: UserId, e1: string, e2: string, r1: Role, r2: Role)
    ensures UpdateStatus(s, id, status, Decoded(uid, e1, r1)) == UpdateStatus(s, id, status, Decoded(uid, e2, r2))
  {
  }

  /** Updating a status keeps every stored task valid. */
  lemma UpdateStatusPreservesValid(s: Store, id: TaskId, status: string, token: Token)
    requires ValidStore(s)
    requires UpdateStatus(s, id, status, token).Ok?
    ensures ValidStore(UpdateStatus(s, id, status, token).store)
  {
  }

  // ---------------------------------------------------------------- /tasks-member

  /** `GET /tasks-member` (server/index.js:179-204): the tasks assigned to the
      user with the given email, matched by that user's name. The stored name
      is untrimmed (server/models/user.js:4), but the Task query trims it. */
  function MemberTasks(s: Store, assignedTo: Option<string>): (r: Outcome<map<TaskId, Task>>)
    ensures r == Err(BadRequest) <==> !Truthy(assignedTo)
    ensures Truthy(assignedTo) ==> (r == Err(NotFound) <==> !EmailTaken(s.users, assignedTo.value))
    ensures r.Ok? <==> Truthy(assignedTo) && EmailTaken(s.users, assignedTo.value)
    ensures r.Ok? ==>
      && r.store == s
      && var uid := FindByEmail(s.users, assignedTo.value).value;
      && (forall id :: id in r.value <==> id in s.tasks && s.tasks[id].assignedTo == Trim(s.users[uid].name))
      && (forall id :: id in r.value ==> r.value[id] == s.tasks[id])
  {
    if !Truthy(assignedTo) then Err(BadRequest)
    else
      match FindByEmail(s.users, assignedTo.value)
      case None => Err(NotFound)
      case Some(uid) =>
        var name := CastQueryValue(AssignedToPath, s.users[uid].name);
        var q: Query := map[AssignedToPath := name];
        var found := Find(s.tasks, q);
        assert forall id :: id in found <==> id in s.tasks && s.tasks[id].assignedTo == name by {
          forall id | id in s.tasks
            ensures id in found <==> s.tasks[id].assignedTo == name
          {
            assert AssignedToPath in q;
          }
        }
        Ok(found, s)
  }

  /** In a valid store, a member's task list is the admin listing filtered by
      that member's name. */
  lemma MemberTasksIsAssigneeFilter(s: Store, uid: UserId)
    requires ValidStore(s) && uid in s.users
    ensures var u := s.users[uid];
      MemberTasks(s, Some(u.email)) == Ok(ListTasks(s, Filter(None, Some(u.name), None)).value, s)
  {
    var u := s.users[uid];
    FindByEmailUnique(s.users, uid);
    var m := MemberTasks(s, Some(u.email)).value;
    var l := ListTasks(s, Filter(None, Some(u.name), None)).value;
    assert m.Keys == l.Keys;
  }
}

=== FILE: store.dfy ===
/** The abstract document store: the `users` and `tasks` collections as maps
    from document id to document, with the invariant the schemas maintain. */
module Store {
  import opened Values
  import opened TaskModel
  import opened UserModel

  /** Document ids. The database assigns them; here they are request inputs. */
  type UserId = nat
  type TaskId = nat

  datatype Store = Store(users: map<UserId, User>, tasks: map<TaskId, Task>)

  /** The `unique: true` index on `email`: no two users share an email. */
  predicate UniqueEmails(users: map<UserId, User>) {
    forall a, b :: a in users && b in users && users[a].email == users[b].email ==> a == b
  }

  predicate ValidStore(s: Store) {
    && (forall id :: id in s.users ==> ValidUser(s.users[id]))
    && UniqueEmails(s.users)
    && (forall id :: id in s.tasks ==> ValidTask(s.tasks[id]))
  }

  predicate EmailTaken(users: map<UserId, User>, email: string) {
    exists id :: id in users && users[id].email == email
  }

  /** Every non-empty set of ids has a least element. */
  lemma {:induction false} LeastExists(ids: set<nat>)
    requires ids != {}
    ensures exists m :: m in ids && forall k :: k in ids ==> m <= k
  {
    var x :| x in ids;
    if ids - {x} != {} {
      LeastExists(ids - {x});
      var m :| m in ids - {x} && forall k :: k in ids - {x} ==> m <= k;
      var least := if x < m then x else m;
      forall k | k in ids ensures least <= k {
        if k != x {
          assert k in ids - {x};
        }
      }
      assert least in ids;
    } else {
      assert ids == {x};
    }
  }

  function Least(ids: set<nat>): (m: nat)
    requires ids != {}
    ensures m in ids && forall k :: k in ids ==> m <= k
  {
    LeastExists(ids);
    var m :| m in ids && forall k :: k in ids ==> m <= k;
    m
  }

  /** `User.findOne({ email })`: some user with that email, if there is one.
      When several match (never in a valid store), the least id is taken. */
  function FindByEmail(users: map<UserId, User>, email: string): (r: Option<UserId>)
    ensures r.None? <==> !EmailTaken(users, email)
    ensures r.Some? ==> r.value in users && users[r.value].email == email
    ensures r.Some? ==> forall id :: id in users && users[id].email == email ==> r.value <= id
  {
    var ids := set id | id in users && users[id].email == email;
    assert forall id :: id in users && users[id].email == email ==> id in ids;
    if ids == {} then None else Some(Least(ids))
  }

  /** With unique emails, the user `findOne` returns is the only one carrying
      that email. */
  lemma FindByEmailUnique(users: map<UserId, User>, id: UserId)
    requires UniqueEmails(users) && id in users
    ensures FindByEmail(users, users[id].email) == Some(id)
  {
  }

  /** The store with `t` written under `id`; nothing else changes. */
  function PutTask(s: Store, id: TaskId, t: Task): (r: Store)
    ensures r.users == s.users
    ensures r.tasks.Keys == s.tasks.Keys + {id} && r.tasks[id] == t
    ensures forall k :: k in s.tasks && k != id ==> r.tasks[k] == s.tasks[k]
  {
    s.(tasks := s.tasks[id := t])
  }

  /** The store without the task `id`; nothing else changes. */
  function RemoveTask(s: Store, id: TaskId): (r: Store)
    ensures r.users == s.users
    ensures r.tasks.Keys == s.tasks.Keys - {id}
    ensures forall k :: k in r.tasks ==> r.tasks[k] == s.tasks[k]
  {
    s.(tasks := s.tasks - {id})
  }

  /** The store with `u` written under `id`; nothing else changes. */
  function PutUser(s: Store, id: UserId, u: User): (r: Store)
    ensures r.tasks == s.tasks
    ensures r.users.Keys == s.users.Keys + {id} && r.users[id] == u
    ensures forall k :: k in s.users && k != id ==> r.users[k] == s.users[k]
  {
    s.(users := s.users[id := u])
  }
}

=== FILE: task.dfy ===
/** The `Task` schema of server/models/task.js: what a stored task looks like,
    and how `new Task({...})` followed by `save()` casts and validates a
    request's fields. Timestamps are not modelled. */
module TaskModel {
  import opened Values
  import opened Text

  /** The `status` enum. */
  datatype Status = ToDo | InProgress | Done

  /** The strings the enum admits, as they are stored and sent over the wire. */
  const StatusNames: set<string> := {"To Do", "In Progress", "Done"}

  function StatusName(st: Status): (r: string)
    ensures r in StatusNames
  {
    match st
    case ToDo => "To Do"
    case InProgress => "In Progress"
    case Done => "Done"
  }

  /** The enum validator: a string names a status only if it is spelt exactly
      as one of the enum values (no trimming, no case folding). */
  function ParseStatus(s: string): (r: Option<Status>)
    ensures r.Some? <==> s in StatusNames
    ensures r.Some? ==> StatusName(r.value) == s
  {
    if s == "To Do" then Some(ToDo)
    else if s == "In Progress" then Some(InProgress)
    else if s == "Done" then Some(Done)
    else None
  }

  /** Every status survives the trip to its stored name and back. */
  lemma StatusRoundTrip(st: Status)
    ensures ParseStatus(StatusName(st)) == Some(st)
  {
  }

  /** The status a task is created with when the request carries none. */
  const DefaultStatus: Status := ToDo

  datatype Task = Task(
    title: string,
    description: Option<string>,
    assignedTo: string,
    createdBy: string,
    status: Status)

  /** A required string path with `trim: true`: stored trimmed, and the
      required validator refuses the empty string. */
  predicate RequiredTrimmed(s: string) {
    s != [] && IsTrimmed(s)
  }

  /** What every stored task satisfies. The description is optional. */
  predicate ValidTask(t: Task) {
    && RequiredTrimmed(t.title)
    && (t.description.Some? ==> IsTrimmed(t.description.value))
    && RequiredTrimmed(t.assignedTo)
    && RequiredTrimmed(t.createdBy)
  }

  /** The body fields of a create request; `None` is an absent field. */
  datatype TaskInput = TaskInput(
    title: Option<string>,
    description: Option<string>,
    assignedTo: Option<string>,
    createdBy: Option<string>,
    status: Option<string>)

  /** A required trimmed path accepts a field that is present and not empty
      once trimmed. */
  predicate AcceptsRequired(f: Option<string>) {
    f.Some? && Trim(f.value) != []
  }

  /** The inputs the schema accepts, stated field by field. */
  predicate AcceptsTask(input: TaskInput) {
    && AcceptsRequired(input.title)
    && AcceptsRequired(input.assignedTo)
    && AcceptsRequired(input.createdBy)
    && (input.status.None? || input.status.value in StatusNames)
  }

  function TrimField(f: Option<string>): Option<string> {
    match f
    case None => None
    case Some(s) => Some(Trim(s))
  }

  /** Casting a required trimmed path: absent stays absent, present is trimmed,
      and the required validator then refuses absent and empty. */
  function CastRequired(f: Option<string>): (r: Option<string>)
    ensures r.Some? <==> AcceptsRequired(f)
    ensures r.Some? ==> r.value == Trim(f.value) && RequiredTrimmed(r.value)
  {
    match TrimField(f)
    case None => None
    case Some(s) => if s == [] then None else Some(s)
  }

  /** Casting the status path: an absent status takes the default, a present
      one must be spelt as an enum value. */
  function CastStatus(f: Option<string>): (r: Option<Status>)
    ensures r.Some? <==> f.None? || f.value in StatusNames
    ensures f.None? ==> r == Some(DefaultStatus)
    ensures f.Some? && r.Some? ==> StatusName(r.value) == f.value
  {
    match f
    case None => Some(DefaultStatus)
    case Some(s) => ParseStatus(s)
  }

  /** `new Task({...})` then `save()`: setters trim, the default fills an
      absent status, and validation either yields the document to store
      or fails (`None`). */
  function BuildTask(input: TaskInput): (r: Option<Task>)
    ensures r.Some? <==> AcceptsTask(input)
    ensures r.Some? ==>
      && r.value.title == Trim(input.title.value)
      && r.value.description == TrimField(input.description)
      && r.value.assignedTo == Trim(input.assignedTo.value)
      && r.value.createdBy == Trim(input.createdBy.value)
      && (input.status.None? ==> r.value.status == DefaultStatus)
      && (input.status.Some? ==> StatusName(r.value.status) == input.status.value)
  {
    var title := CastRequired(input.title);
    var assignedTo := CastRequired(input.assignedTo);
    var createdBy := CastRequired(input.createdBy);
    var status := CastStatus(input.status);
    if title.Some? && assignedTo.Some? && createdBy.Some? && status.Some? then
      Some(Task(title.value, TrimField(input.description), assignedTo.value, createdBy.value, status.value))
    else
      None
  }

  /** Whatever the schema accepts is a valid stored task. */
  lemma BuildTaskValid(input: TaskInput)
    requires BuildTask(input).Some?
    ensures ValidTask(BuildTask(input).value)
  {
  }

  /** A title that is empty after trimming, that is absent, empty or made of
      whitespace only, makes the task invalid whatever the other fields are. */
  lemma BlankTitleRejected(input: TaskInput)
    requires input.title.None? || AllWhitespace(input.title.value)
    ensures BuildTask(input).None?
  {
    if input.title.Some? {
      TrimEmptyIffAllWhitespace(input.title.value);
    }
  }

  /** `assignedTo` and `createdBy` are each required and must be non-empty
      after trimming. */
  lemma BlankPeopleRejected(input: TaskInput)
    requires || input.assignedTo.None? || AllWhitespace(input.assignedTo.value)
             || input.createdBy.None? || AllWhitespace(input.createdBy.value)
    ensures BuildTask(input).None?
  {
    if input.assignedTo.Some? {
      TrimEmptyIffAllWhitespace(input.assignedTo.value);
    }
    if input.createdBy.Some? {
      TrimEmptyIffAllWhitespace(input.createdBy.value);
    }
  }

  /** The description is optional: leaving it out never makes an otherwise
      acceptable task invalid, and the stored task then has none. */
  lemma DescriptionOptional(input: TaskInput)
    requires AcceptsTask(input)
    ensures BuildTask(input.(description := None)) == Some(BuildTask(input).value.(description := None))
  {
  }

  /** A status outside the enum makes validation fail, however good the other
      fields are. */
  lemma UnknownStatusRejected(input: TaskInput)
    requires input.status.Some? && input.status.value !in StatusNames
    ensures BuildTask(input).None?
  {
  }

  /** The stored strings are already trimmed: trimming them again changes nothing. */
  lemma StoredFieldsTrimStable(t: Task)
    requires ValidTask(t)
    ensures Trim(t.title) == t.title
    ensures Trim(t.assignedTo) == t.assignedTo
    ensures Trim(t.createdBy) == t.createdBy
    ensures t.description.Some? ==> Trim(t.description.value) == t.description.value
  {
    TrimFixesExactlyTrimmed(t.title);
    TrimFixesExactlyTrimmed(t.assignedTo);
    TrimFixesExactlyTrimmed(t.createdBy);
    if t.description.Some? {
      TrimFixesExactlyTrimmed(t.description.value);
    }
  }
}

=== FILE: text.dfy ===
/** Whitespace trimming as done by JavaScript's `String.prototype.trim`,
    which Mongoose applies to every schema path declared with `trim: true`. */
module Text {

  /** The characters `trim` removes: the WhiteSpace and LineTerminator code
      points of ECMA-262 (sections 12.2 and 12.3). */
  predicate IsWhitespace(c: char) {
    var n := c as int;
    if n <= 0x20 then n == 0x20 || 0x09 <= n <= 0x0D
    else if n < 0xA0 then false
    else
      || n == 0xA0 || n == 0x1680 || 0x2000 <= n <= 0x200A
      || n == 0x2028 || n == 0x2029 || n == 0x202F || n == 0x205F
      || n == 0x3000 || n == 0xFEFF
  }

  /** Every character of `s` at a position in `[lo, hi)` is whitespace. */
  predicate WhitespaceBetween(s: string, lo: int, hi: int)
    requires 0 <= lo <= hi <= |s|
  {
    forall i :: lo <= i < hi ==> IsWhitespace(s[i])
  }

  predicate AllWhitespace(s: string) {
    WhitespaceBetween(s, 0, |s|)
  }

  /** No leading and no trailing whitespace. */
  predicate IsTrimmed(s: string) {
    s == [] || (!IsWhitespace(s[0]) && !IsWhitespace(s[|s| - 1]))
  }

  /** `r` is the last `|r|` characters of `s`. */
  predicate SuffixAt(s: string, r: string)
    requires |r| <= |s|
  {
    forall i :: 0 <= i < |r| ==> r[i] == s[|s| - |r| + i]
  }

  /** `r` is the first `|r|` characters of `s`. */
  predicate PrefixAt(s: string, r: string)
    requires |r| <= |s|
  {
    forall i :: 0 <= i < |r| ==> r[i] == s[i]
  }

  /** Drops the leading whitespace: the result is the longest suffix that
      does not start with whitespace, and everything dropped is whitespace. */
  function TrimStart(s: string): (r: string)
    ensures |r| <= |s| && SuffixAt(s, r)
    ensures r == [] || !IsWhitespace(r[0])
    ensures WhitespaceBetween(s, 0, |s| - |r|)
  {
    if s == [] || !IsWhitespace(s[0]) then s else TrimStart(s[1..])
  }

  /** Drops the trailing whitespace: the result is the longest prefix that
      does not end with whitespace, and everything dropped is whitespace. */
  function TrimEnd(s: string): (r: string)
    ensures |r| <= |s| && PrefixAt(s, r)
    ensures r == [] || !IsWhitespace(r[|r| - 1])
    ensures WhitespaceBetween(s, |r|, |s|)
  {
    if s == [] || !IsWhitespace(s[|s| - 1]) then s else TrimEnd(s[..|s| - 1])
  }

  /** `s.trim()`: the result neither starts nor ends with whitespace. */
  function Trim(s: string): (r: string)
    ensures IsTrimmed(r)
  {
    var t := TrimStart(s);
    var r := TrimEnd(t);
    assert r == [] || !IsWhitespace(r[0]) by {
      if r != [] {
        assert r[0] == t[0];
      }
    }
    r
  }

  /** The input of `trim` is `lead + Trim(s) + trail`, where `lead` and
      `trail` are all whitespace: trimming removes whitespace at the two ends
      and nothing else. */
  lemma TrimDecomposes(s: string)
    ensures var r, k := Trim(s), |s| - |TrimStart(s)|;
      && k + |r| <= |s|
      && r == s[k..k + |r|]
      && WhitespaceBetween(s, 0, k)
      && WhitespaceBetween(s, k + |r|, |s|)
  {
    var t := TrimStart(s);
    var r := TrimEnd(t);
    var k := |s| - |t|;
    assert Trim(s) == r;
    assert t == s[k..];
    forall i | k + |r| <= i < |s| ensures IsWhitespace(s[i]) {
      assert s[i] == t[i - k];
    }
  }

  /** Trimming leaves a string unchanged exactly when it is already trimmed. */
  lemma TrimFixesExactlyTrimmed(s: string)
    ensures Trim(s) == s <==> IsTrimmed(s)
  {
    if IsTrimmed(s) && s != [] {
      assert TrimStart(s) == s;
      assert TrimEnd(s) == s;
    }
  }

  /** Trimming twice is trimming once. */
  lemma TrimIdempotent(s: string)
    ensures Trim(Trim(s)) == Trim(s)
  {
    TrimFixesExactlyTrimmed(Trim(s));
  }

  /** Trimming yields the empty string exactly when the input is all whitespace. */
  lemma TrimEmptyIffAllWhitespace(s: string)
    ensures Trim(s) == [] <==> AllWhitespace(s)
  {
    var t := TrimStart(s);
    if Trim(s) == [] {
      assert TrimEnd(t) == [];
      assert t == [];
    }
  }
}

=== FILE: user.dfy ===
/** The `User` schema of server/models/user.js and the password hashing the
    server applies before storing a user. bcrypt is replaced by a salted
    stand-in digest: everything proved about it goes through `Matches`. */
module UserModel {
  import opened Values

  /** The `role` enum. */
  datatype Role = Admin | Manager | Member

  const RoleNames: set<string> := {"Admin", "Manager", "Member"}

  function RoleName(role: Role): (r: string)
    ensures r in RoleNames
  {
    match role
    case Admin => "Admin"
    case Manager => "Manager"
    case Member => "Member"
  }

  /** The enum validator: exact spelling only. */
  function ParseRole(s: string): (r: Option<Role>)
    ensures r.Some? <==> s in RoleNames
    ensures r.Some? ==> RoleName(r.value) == s
  {
    if s == "Admin" then Some(Admin)
    else if s == "Manager" then Some(Manager)
    else if s == "Member" then Some(Member)
    else None
  }

  lemma RoleRoundTrip(role: Role)
    ensures ParseRole(RoleName(role)) == Some(role)
  {
  }

  /** The role a user is created with when the request carries none. */
  const DefaultRole: Role := Member

  /** Modulus of the stand-in digest. */
  const DigestModulus: nat := 0x1_0000_0000

  /** A salted digest standing in for bcrypt. It is not one-way and may
      collide; nothing in the model depends on more than its being a function
      of the salt and the password. */
  function Digest(salt: nat, password: string): (d: nat)
    ensures d < DigestModulus
  {
    if password == [] then salt % DigestModulus
    else (Digest(salt, password[..|password| - 1]) * 131 + password[|password| - 1] as int) % DigestModulus
  }

  /** A stored password: the salt travels with the digest, as in a bcrypt string. */
  datatype Hash = Hash(salt: nat, digest: nat)

  /** `bcrypt.compare(password, hash)`. */
  predicate Matches(password: string, h: Hash) {
    Digest(h.salt, password) == h.digest
  }

  /** `bcrypt.hash(password, 10)`, with the random salt made an input: the
      hash it yields is one the same password matches. */
  function HashPassword(password: string, salt: nat): (h: Hash)
    ensures Matches(password, h)
    ensures h.salt == salt
  {
    Hash(salt, Digest(salt, password))
  }

  datatype User = User(name: string, email: string, password: Hash, role: Role)

  /** The required validators: `name`, `email` and `password` must be present
      and non-empty. The password is a `Hash`, present by construction; the
      role is an enum value by construction. */
  predicate ValidUser(u: User) {
    u.name != "" && u.email != ""
  }

  /** The body fields of a create-user request that reach the schema; `None`
      is an absent field. */
  datatype UserInput = UserInput(
    name: Option<string>,
    email: string,
    password: Option<string>,
    role: Option<string>)

  /** The inputs the schema accepts, stated field by field. */
  predicate AcceptsUser(input: UserInput) {
    && input.name.Some? && input.name.value != ""
    && input.email != ""
    && (input.role.None? || input.role.value in RoleNames)
  }

  /** Casting the role path: absent takes the default, present must be an enum value. */
  function CastRole(f: Option<string>): (r: Option<Role>)
    ensures r.Some? <==> f.None? || f.value in RoleNames
    ensures f.None? ==> r == Some(DefaultRole)
    ensures f.Some? && r.Some? ==> RoleName(r.value) == f.value
  {
    match f
    case None => Some(DefaultRole)
    case Some(s) => ParseRole(s)
  }

  /** `new User({name, email, password: hashed, role})` then `save()`:
      validation either yields the document to store or fails (`None`).
      No path of this schema trims. */
  function BuildUser(input: UserInput, hashed: Hash): (r: Option<User>)
    ensures r.Some? <==> AcceptsUser(input)
    ensures r.Some? ==>
      && ValidUser(r.value)
      && r.value.name == input.name.value
      && r.value.email == input.email
      && r.value.password == hashed
      && (input.role.None? ==> r.value.role == DefaultRole)
      && (input.role.Some? ==> RoleName(r.value.role) == input.role.value)
  {
    var role := CastRole(input.role);
    if input.name.Some? && input.name.value != "" && input.email != "" && role.Some? then
      Some(User(input.name.value, input.email, hashed, role.value))
    else
      None
  }

  /** Each of `name`, `email` and `password` is required: leaving one out
      (or, for the two strings, sending it empty) makes validation fail. */
  lemma RequiredUserFields(input: UserInput, hashed: Hash)
    requires input.name.None? || input.name.value == "" || input.email == ""
    ensures BuildUser(input, hashed).None?
  {
  }
}

=== FILE: values.dfy ===
/** Small value types shared by the whole model. */
module Values {

  /** An optional value. In a request, `None` stands for a body or query field
      that is absent (JavaScript `undefined`); in a record, for an unset path. */
  datatype Option<+T> = None | Some(value: T)

  /** JavaScript truthiness of an optional string: present and non-empty.
      This is what `if (x)` tests on a query or body field. */
  predicate Truthy(o: Option<string>) {
    o.Some? && o.value != ""
  }
}
